=== FILE: README.md ===
# Journals backend: ownership and privacy core, in Dafny

This project models the ownership and privacy rules of a Django REST
journaling backend. Users write journals. Journals hold posts, posts hold
comments, and users follow each other. The model covers these rules:

- **Journal save** (`Journal.save`). When a stored journal's `is_private`
  changes, every post of the journal is bulk-updated to the new value. A
  journal saved as not private loses its PIN hash.
- **Post save** (`Post.save`). A post saved under a private journal is
  stored private. Under a public journal the post keeps the `is_private`
  it was given. Only this one direction holds, so a public journal may
  contain private posts.
- **PIN handling.** This covers `set_pin` and `check_pin`, and the
  serializer's write-only `pin` field with its 4 and 6 length bounds.
  `validate_pin` maps a blank pin to None and refuses one that is not
  all digits. `create` and `update` call `set_pin`.
- **Author-only writes.** Update and delete of a post, comment or journal
  raise PermissionDenied unless the requester is the author. Create uses
  the requester as author, whatever the request body says.
- **Follow edges.** A user cannot follow themself. An edge is unique, and
  a duplicate becomes a validation error. Listing returns only the
  requester's own edges.
- **Journal export.** A missing journal gives 404 and a non-author gives
  403. The author gets six header lines, then the posts numbered from 1
  in ascending publication date.

The database is one immutable `Store`. It has a map per keyed table
(journals, posts, comments), the follow table as a sequence, the users
with their usernames, and the next free key. Every request is a pure
function or method. It takes the store and returns a new store, or a
`Result` error. A failed request returns no store, so the store is left
as it was.

Modules follow the source layout:

- `Base` holds identifiers, `Option`, `Result` and the error kinds.
- `Vault` models `make_password` / `check_password`.
- `Models` models `posts/models.py`: records, save hooks, PIN helpers and
  database constraints.
- `Serializers` models `api/serializers.py`.
- `Views` models the viewsets of `api/views.py`.
- `Export` models `JournalExportAPIView`.
- `Invariants` proves the store invariants that every request keeps.

Some behaviours of the code are recorded as written:

- `JournalSerializer.create` inserts the journal and only then calls
  `set_pin` on the instance, which it never saves again. The stored
  journal therefore has no PIN hash right after create, even when a
  valid PIN was sent. The returned instance does carry the hash.
  `Serializers.CreateDropsPin` states this.
- `update` always calls `set_pin` with the popped pin. An update that
  does not send a pin therefore clears an existing PIN
  (`Serializers.UpdateWithoutPinClears`).
- Nothing checks who owns the journal a post is created in. Posts,
  journals and comments are listed and retrieved without any visibility
  filter. A check of a PIN on a public journal is not refused.

The code does not enforce two-way equality of post and journal privacy,
filtering of reads by privacy, a journal-ownership check on post
creation, or refusal of a PIN check on a public journal. The model
follows the code.

Where the request layer orders its checks, the model keeps that order.
An update looks the object up first (404), then validates the body (400),
and only then compares the author (403).

## Model

| member | source | states |
|---|---|---|
| `Models.CascadePrivacy` | posts/models.py:35-38 | the bulk update sets `is_private` of exactly the journal's posts to the new value and changes no other field or post |
| `Models.SaveJournal` | posts/models.py:31-42 | a missing key is DoesNotExist; the posts follow a change of `is_private` and are untouched otherwise or on insert; a public journal is stored without PIN and a private one keeps the PIN it had; nothing else changes |
| `Models.SetPin` | posts/models.py:44-48 | a non-empty PIN is stored as `make_password` of it (a hash value, never the raw text); no or empty PIN clears it; no other field changes |
| `Models.CheckPin` | posts/models.py:50-53 | a journal without a PIN hash accepts every PIN |
| `Models.CheckPinAfterSetPin` | posts/models.py:44-53 | `check_pin(p)` after `set_pin(p)` is true for every `p` |
| `Models.CheckPinRejectsOthers` | posts/models.py:44-53 | under a collision-free hash, `check_pin(q)` after `set_pin(p)` is false for every `q` other than a non-empty `p` |
| `Models.SavePost` | posts/models.py:77-81 | under a private journal the stored post is private; under a public one the caller's `is_private` is kept; a missing journal is DoesNotExist |
| `Models.InsertFollow` | posts/models.py:90-97 | a second edge with the same (user, following) pair is refused with an integrity error and the table is unchanged; otherwise the edge is appended |
| `Models.SaveComment` | api/views.py:59-68 | a comment whose post or author is missing is an IntegrityError; otherwise exactly that comment is written, under a fresh key on insert and under its own key on update, and nothing else changes |
| `Models.DeletePost` | api/views.py:43 | deleting a post removes exactly that post and the comments on it, and keeps every other row as it was |
| `Models.DeleteJournal` | posts/models.py:74-75 | deleting a journal deletes exactly its posts and their comments, and keeps every other row as it was |
| `Vault.MakePassword` | posts/models.py:46 | the stored hash records the salt it was made under |
| `Vault.CheckPassword` | posts/models.py:53 | a check succeeds exactly when hashing the offered secret again under the stored salt reproduces the stored hash |
| `Vault.CheckMade` | posts/models.py:46-53 | a hash verifies the secret it was made from |
| `Vault.CheckOnlyMade` | posts/models.py:46-53 | under a collision-free derivation a hash verifies no other secret |
| `Vault.SaltedHashesDiffer` | posts/models.py:46 | two hashes of one PIN under different salts differ, and both verify the PIN |
| `Serializers.Trim` | api/serializers.py:53-60 | the field's whitespace strip returns the slice after the leading whitespace, followed only by whitespace, starting and ending with a non-space |
| `Serializers.TrimBlank` | api/serializers.py:53-60 | a pin strips to nothing exactly when it is all whitespace |
| `Serializers.ValidatePin` | api/serializers.py:76-81 | empty gives None; a non-empty value is refused exactly when it has a non-digit or fewer than 4 characters; otherwise it is returned unchanged |
| `Serializers.PinField` | api/serializers.py:53-81 | missing gives None, null is refused; blank gives None; 1-3 characters fail min_length, more than 6 fail max_length, non-digits fail validate_pin; a valid pin comes back stripped |
| `Serializers.PinFieldAccepts` | api/serializers.py:53-81 | the field accepts a pin exactly when it is blank or strips to 4-6 digits |
| `Serializers.CleanText` | posts/models.py:9-10 | a text field value is stripped of surrounding whitespace, and refused as blank exactly when it is all whitespace and the field does not allow blank |
| `Serializers.ValidateJournal` | api/serializers.py:50-74 | title is required unless partial and is refused when it strips to nothing; otherwise a pin the field refuses gives exactly the field's error; the validated data carries the stripped title and description, the other sent fields, and the validated pin |
| `Serializers.ApplyJournalData` | api/serializers.py:92 | every sent field replaces the instance's, the rest keep their values, and the author is the one the view passes |
| `Serializers.Create` | api/serializers.py:83-87 | the journal is inserted with the given fields and the author, and stored without a PIN hash; only the returned instance carries `make_password(pin)` |
| `Serializers.CreateDropsPin` | api/serializers.py:83-87 | a private journal created with a valid PIN is stored with no PIN hash |
| `Serializers.Update` | api/serializers.py:89-92 | the stored journal has a PIN hash exactly when it is private and a non-empty pin was sent, and that hash is of the sent pin; sent fields replace old ones; the cascade follows a change of `is_private`; no other journal, comment or follow changes and no key is used up |
| `Serializers.UpdateWithoutPinClears` | api/serializers.py:89-92 | an update that sends no pin leaves the journal without one |
| `Serializers.Represent` | api/serializers.py:94-97 | the representation holds the declared fields with the author's username; it has no PIN field |
| `Serializers.RepresentIgnoresPin` | api/serializers.py:53-60 | journals differing only in their PIN hash have the same representation, because `pin` is write-only and `pin_code` is dropped |
| `Serializers.ValidateFollow` | api/serializers.py:100-111 | an unknown user and the requester themself are refused; otherwise the edge is (requester, following) |
| `Views.PostFieldsError` | api/serializers.py:28-34 | a post body is valid exactly when text and journal are sent (or the update is partial), a sent text does not strip to nothing, and a sent journal exists |
| `Views.PostCreate` | api/views.py:29-30 | a valid body creates a post whose author is the requester whatever the body says, in any existing journal, with the sent text stripped and the sent image, private when the journal is, with nothing else changed |
| `Views.PostUpdate` | api/views.py:32-36 | a missing post is 404, an invalid body 400, a non-author 403; on success the author is the requester, who is the original author, a sent text is stored stripped, and the stored post is re-forced private under a private journal |
| `Views.PostDestroy` | api/views.py:38-43 | a missing post is 404, a non-author 403; only the author deletes it, and its comments go with it |
| `Views.CommentCreate` | api/views.py:59-61 | a comment is created with the requester as author and the URL's post; a missing post is 404 |
| `Views.CommentUpdate` | api/views.py:63-68 | a comment outside the URL's post is 404, a missing text on a full update 400, a non-author 403; on success only its text changes |
| `Views.CommentDestroy` | api/views.py:70-75 | only the author deletes the comment; otherwise 404 or 403 and nothing changes |
| `Views.JournalCreate` | api/views.py:82-83 | a valid body creates a journal under a fresh key whose author is the requester, with the validated title, description and image, stored without a PIN hash; no other journal, post, comment or follow changes; an invalid body is refused |
| `Views.JournalUpdate` | api/views.py:85-89 | 404, then 400, then 403 for a non-author; on success the author stays the requester, sent fields replace old ones, the stored hash exists exactly when the journal is private and a pin was sent and is of that pin, the posts follow a change of privacy, no other journal, comment or follow changes, and no key is used up |
| `Views.JournalDestroy` | api/views.py:91-96 | only the author deletes the journal, with its posts and their comments |
| `Views.OutgoingMembers` | api/views.py:110-113 | an edge is listed exactly when it is stored and its follower is the requester |
| `Views.FollowList` | api/views.py:110-113 | the listing is exactly the requester's outgoing edges, each once per stored edge |
| `Views.FollowCreate` | api/views.py:115-121 | an unknown target, a self-follow and a duplicate edge are validation errors with no new edge; otherwise exactly (requester, following) is appended |
| `Export.ParseNatToString` | api/views.py:150-152 | reading an entry number back gives the number, so the labels 1..n are distinct |
| `Export.DescriptionText` | api/views.py:143 | a missing or empty description renders as `-`; any other is rendered as is |
| `Export.ExportOrder` | api/views.py:150 | the listed keys are stored posts, strictly ascending in (`pub_date`, key) |
| `Export.ExportOrderIsJournalPosts` | api/views.py:150 | the export lists exactly the posts of the journal; the order is strictly ascending in (`pub_date`, key), so none appears twice |
| `Export.NumberEntries` | api/views.py:150-154 | the k-th listed post gets entry number k+1 |
| `Export.ExportJournal` | api/views.py:126-158 | a missing journal gives 404 and a non-author 403; only the author gets the six header lines followed by one numbered entry per post in export order |
| `Invariants.SaveJournalKeepsConsistent` | posts/models.py:31-42 | Journal.save keeps the database constraints, "public journals carry no PIN" and "posts of private journals are private" |
| `Invariants.SavePostKeepsConsistent` | posts/models.py:77-81 | Post.save keeps the same invariants |
| `Invariants.PostCreateKeepsConsistent` | api/views.py:29-30 | creating a post keeps the invariants |
| `Invariants.PostUpdateKeepsConsistent` | api/views.py:32-36 | updating a post, including a move to another journal, keeps the invariants |
| `Invariants.PostDestroyKeepsConsistent` | api/views.py:38-43 | deleting a post leaves no comment pointing at it |
| `Invariants.CommentCreateKeepsConsistent` | api/views.py:59-61 | creating a comment keeps the invariants |
| `Invariants.CommentUpdateKeepsConsistent` | api/views.py:63-68 | updating a comment keeps the invariants |
| `Invariants.CommentDestroyKeepsConsistent` | api/views.py:70-75 | deleting a comment keeps the invariants |
| `Invariants.JournalCreateKeepsConsistent` | api/views.py:82-83 | creating a journal keeps the invariants |
| `Invariants.JournalUpdateKeepsConsistent` | api/views.py:85-89 | updating a journal, including a privacy flip, keeps the invariants |
| `Invariants.JournalDestroyKeepsConsistent` | api/views.py:91-96 | deleting a journal leaves no post or comment pointing at it |
| `Invariants.FollowCreateKeepsConsistent` | api/views.py:115-121 | creating a follow keeps edges unique and never adds a self-follow |

## Left out

- Image upload: `Base64ImageField` decoding and file storage. An image is an opaque reference.
- The password-hashing algorithm. The key derivation is a parameter (`Vault.Kdf`) and the salt is an input. "Only the right PIN verifies" is proved for any collision-free derivation, which is stated as a hypothesis.
- Date formatting, `HttpResponse` and the Content-Disposition file name of the export. Dates are rendered by a `fmt` parameter, and the body is the lines joined by newlines.
- Search and filter backends, URL routing, schema generation and static files. These are framework wiring.
- Authentication and permission classes. Every request is made by an existing, authenticated user. Anonymous requests are not modelled. The project's default permission settings are not modelled.
- Listing and retrieval. Posts and journals return every row. Comments return the comments of the URL's post, with 404 when that post is missing. No privacy filter applies to any of them.
- Concurrency. Races between a privacy cascade and a concurrent post save, and duplicate follows racing past each other, are not modelled. Uniqueness is a sequential check of the store.
- Unicode. Whitespace stripping and `isdigit` use ASCII only.
- A pin sent as a JSON number is not modelled; it would be rendered to text before the same checks.
- The NUL-character validator of the pin field. A pin holding NUL is refused either way, but the model names the digit rule as the reason.
- When several fields fail validation at once, the framework reports every message. The model reports one, the first in field order.
- Field checks other than presence, whitespace stripping with blank refusal, the pin rules and the journal key, such as the 200-character title bound.
- The Comment model is not modelled from its definition. Its fields (author, post, text) are the ones the views and serializer use, and its post foreign key is taken to cascade.
- `Views.CommentCreate` and `Views.CommentUpdate` store the comment text as sent. The framework almost certainly strips it, since both model text field kinds map to a stripping serializer field. Whether a blank text is refused depends on the field's `blank` option in the Comment model, which is not modelled.
- Deleting users, and the cascades that follow from it.
- Model ordering metadata and `__str__`.
- Key allocation. One counter serves all tables, and keys are never reused.
- Posts with equal `pub_date` are exported in key order. The database leaves their order unspecified.
- `Views.FollowList` returns the edges in the order they are stored. `Follow` declares no ordering, so the database promises no order; only the set of listed edges is meaningful.
- `Models.SaveJournal`: the test `if self.pk:` is modelled as "a key was given". Python would treat a key of 0 as absent, but stored keys are never 0: auto-increment starts at 1, and `Models.Valid` requires every stored key to be positive.
- `Models.SaveJournal`: in the code the cascade to the posts is written before the journal row. If that row write then fails, the posts keep the cascaded value. The model fails as a whole and leaves the store unchanged. The views never reach this path, because the author is always the existing requester.
- `Models.SavePost` and `Models.SaveComment`: saving under a key that is not stored, which Django turns into an insert with that key, is excluded by a precondition. Every update in the views saves an instance loaded from the store.

=== FILE: base.dfy ===
/** Shared vocabulary of the journals backend model: identifiers, optional
    values, and the failure kinds the request layer can raise. */
module Base {

  /** Primary keys of users and of stored rows. */
  type UserId = nat
  type Id = nat

  /** Instants as the database stores them; only their order matters here. */
  type Time = int

  /** An opaque reference to an uploaded image file. */
  type ImageRef = string

  datatype Option<+T> = None | Some(value: T) {
    function GetOr(default: T): T {
      match this
      case Some(v) => v
      case None => default
    }
  }

  predicate IsDigit(c: char) {
    '0' <= c <= '9'
  }

  /** str.isdigit, for ASCII digits. */
  predicate AllDigits(s: string) {
    forall i :: 0 <= i < |s| ==> IsDigit(s[i])
  }

  /** Why a request body was refused with a validation error. */
  datatype Reason =
    | PinNull          // the pin field was sent as JSON null
    | PinTooShort      // the pin field's min_length bound
    | PinTooLong       // the pin field's max_length bound
    | PinFormat        // validate_pin: not all digits, or shorter than 4
    | Required         // a required field is missing
    | Blank            // a text field that may not be blank strips to nothing
    | UnknownJournal   // a journal key that does not exist
    | UnknownUser      // a username that does not exist
    | SelfFollow       // following oneself
    | AlreadyFollowing // a duplicate follow edge

  datatype Error =
    | NotFound                   // HTTP 404 from an object lookup
    | PermissionDenied           // HTTP 403 from an author check
    | ValidationError(reason: Reason)  // HTTP 400
    | DoesNotExist               // ORM lookup of a missing row
    | IntegrityError             // a database constraint was violated

  datatype Result<+T> = Ok(value: T) | Err(error: Error)
}

=== FILE: export.dfy ===
/** The plain-text export of a journal (JournalExportAPIView.get): 404 for
    a missing journal, 403 for anyone but its author, and otherwise six
    header lines followed by the journal's posts numbered from 1 in
    ascending publication date. Dates reach the text through `fmt`, which
    stands for strftime('%d.%m.%Y %H:%M'). */
module Export {
  import opened Base
  import opened Models

  // ---------------------------------------------------------------------
  // Decimal numbers

  /** str(n) for a natural number. */
  function NatToString(n: nat): (r: string)
    ensures |r| >= 1 && AllDigits(r)
    ensures n > 0 ==> r[0] != '0'
    decreases n
  {
    if n < 10 then [DigitChar(n)] else NatToString(n / 10) + [DigitChar(n % 10)]
  }

  function DigitChar(d: nat): (c: char)
    requires d < 10
    ensures IsDigit(c) && c as int - '0' as int == d
  {
    ('0' as int + d) as char
  }

  /** int(s) for a string of decimal digits. */
  function ParseDecimal(s: string): nat
    requires AllDigits(s)
  {
    if s == [] then 0 else 10 * ParseDecimal(s[..|s| - 1]) + (s[|s| - 1] as int - '0' as int)
  }

  /** Reading a rendered number back gives the number: the entry labels
      1, 2, ... are distinct. */
  lemma {:induction false} ParseNatToString(n: nat)
    ensures ParseDecimal(NatToString(n)) == n
    decreases n
  {
    if n >= 10 {
      var r := NatToString(n);
      assert r[..|r| - 1] == NatToString(n / 10);
      ParseNatToString(n / 10);
    }
  }

  // ---------------------------------------------------------------------
  // The posts of a journal, in export order

  /** The keys below `n` of the posts of `journal`, in ascending key order. */
  function JournalPosts(posts: map<Id, Post>, journal: Id, n: nat): (r: seq<Id>)
    ensures forall x :: x in r <==> x < n && x in posts && posts[x].journal == journal
    ensures forall i, j :: 0 <= i < j < |r| ==> r[i] < r[j]
    decreases n
  {
    if n == 0 then []
    else
      var below := JournalPosts(posts, journal, n - 1);
      assert forall i :: 0 <= i < |below| ==> below[i] in below;
      below + (if n - 1 in posts && posts[n - 1].journal == journal then [n - 1] else [])
  }

  /** order_by('pub_date'): `a` comes before `b`. Posts published at the
      same instant are taken in key order. */
  predicate Precedes(posts: map<Id, Post>, a: Id, b: Id)
    requires a in posts && b in posts
  {
    posts[a].pubDate < posts[b].pubDate || (posts[a].pubDate == posts[b].pubDate && a < b)
  }

  ghost predicate AllIn(posts: map<Id, Post>, xs: seq<Id>) {
    forall i :: 0 <= i < |xs| ==> xs[i] in posts
  }

  ghost predicate Distinct(xs: seq<Id>) {
    forall i, j :: 0 <= i < j < |xs| ==> xs[i] != xs[j]
  }

  /** Strictly ascending in (pub_date, key): no post appears twice. */
  ghost predicate SortedByDate(posts: map<Id, Post>, xs: seq<Id>)
    requires AllIn(posts, xs)
  {
    forall i, j :: 0 <= i < j < |xs| ==> Precedes(posts, xs[i], xs[j])
  }

  function Insert(posts: map<Id, Post>, x: Id, xs: seq<Id>): (r: seq<Id>)
    requires x in posts && x !in xs && AllIn(posts, xs) && SortedByDate(posts, xs)
    ensures multiset(r) == multiset(xs) + multiset{x}
    ensures AllIn(posts, r) && SortedByDate(posts, r)
  {
    if xs == [] then [x]
    else if Precedes(posts, x, xs[0]) then [x] + xs
    else
      var rest := Insert(posts, x, xs[1..]);
      assert forall i :: 0 <= i < |rest| ==> rest[i] in multiset(xs[1..]) + multiset{x};
      assert forall i :: 0 <= i < |rest| ==> Precedes(posts, xs[0], rest[i]);
      assert xs == [xs[0]] + xs[1..];
      [xs[0]] + rest
  }

  function SortByDate(posts: map<Id, Post>, xs: seq<Id>): (r: seq<Id>)
    requires AllIn(posts, xs) && Distinct(xs)
    ensures multiset(r) == multiset(xs)
    ensures AllIn(posts, r) && SortedByDate(posts, r)
  {
    if xs == [] then []
    else
      assert xs == [xs[0]] + xs[1..];
      var rest := SortByDate(posts, xs[1..]);
      assert xs[0] !in multiset(xs[1..]);
      Insert(posts, xs[0], rest)
  }

  /** The posts of `journal` as the export lists them. */
  function ExportOrder(s: Store, journal: Id): (r: seq<Id>)
    ensures AllIn(s.posts, r) && SortedByDate(s.posts, r)
  {
    var ids := JournalPosts(s.posts, journal, s.nextId);
    assert forall i :: 0 <= i < |ids| ==> ids[i] in ids;
    SortByDate(s.posts, ids)
  }

  /** In a consistent store the export lists exactly the posts of the
      journal, each once (the order is strict), in ascending publication
      date. */
  lemma ExportOrderIsJournalPosts(s: Store, journal: Id)
    requires Valid(s)
    ensures forall x :: x in ExportOrder(s, journal) <==> PostOfJournal(s, x, journal)
  {
    var ids := JournalPosts(s.posts, journal, s.nextId);
    assert forall i :: 0 <= i < |ids| ==> ids[i] in ids;
    var order := ExportOrder(s, journal);
    assert multiset(order) == multiset(ids);
    forall x ensures x in order <==> x in ids {
      assert x in order <==> x in multiset(order);
      assert x in ids <==> x in multiset(ids);
    }
  }

  // ---------------------------------------------------------------------
  // The response

  datatype Response =
    | Status(code: nat)                        // {"error": ...} with this status
    | Attachment(lines: seq<string>, body: string)  // text/plain content

  /** journal.description or '-'. */
  function DescriptionText(d: Option<string>): (r: string)
    ensures r == "-" <==> d.None? || d.value == [] || d.value == "-"
    ensures d.Some? && d.value != [] ==> r == d.value
  {
    match d
    case Some(text) => if text == [] then "-" else text
    case None => "-"
  }

  function Header(j: Journal, username: string, fmt: Time -> string): seq<string>
  {
    [ "Дневник: " + j.title,
      "Описание: " + DescriptionText(j.description),
      "Создан: " + fmt(j.pubDate),
      "Изменен: " + fmt(j.lastModified),
      "Автор: " + username,
      "\nЗаписи:" ]
  }

  /** The entry of the `number`-th post. */
  function Entry(number: nat, p: Post, fmt: Time -> string): string
  {
    NatToString(number) + ". " + p.text + "\n" + "Дата создания: " + fmt(p.pubDate) + "\n"
  }

  /** '\n'.join(lines). */
  function Join(lines: seq<string>): string
  {
    if lines == [] then []
    else if |lines| == 1 then lines[0]
    else lines[0] + "\n" + Join(lines[1..])
  }

  /** for i, post in enumerate(posts, 1): one entry per post, numbered
      from 1 in the given order. */
  method NumberEntries(posts: map<Id, Post>, order: seq<Id>, fmt: Time -> string) returns (entries: seq<string>)
    requires AllIn(posts, order)
    ensures |entries| == |order|
    ensures forall k :: 0 <= k < |order| ==> entries[k] == Entry(k + 1, posts[order[k]], fmt)
  {
    entries := [];
    var i := 0;
    while i < |order|
      invariant 0 <= i <= |order|
      invariant |entries| == i
      invariant forall k :: 0 <= k < i ==> entries[k] == Entry(k + 1, posts[order[k]], fmt)
    {
      entries := entries + [Entry(i + 1, posts[order[i]], fmt)];
      i := i + 1;
    }
  }

  method ExportJournal(s: Store, requester: UserId, pk: Id, fmt: Time -> string) returns (resp: Response)
    requires Valid(s)
    ensures pk !in s.journals ==> resp == Status(404)
    ensures pk in s.journals && s.journals[pk].author != requester ==> resp == Status(403)
    ensures resp.Attachment? <==> pk in s.journals && s.journals[pk].author == requester
    ensures resp.Attachment? ==>
      var j, order := s.journals[pk], ExportOrder(s, pk);
      && |resp.lines| == 6 + |order|
      && resp.lines[..6] == Header(j, s.users[j.author], fmt)
      && (forall k :: 0 <= k < |order| ==> resp.lines[6 + k] == Entry(k + 1, s.posts[order[k]], fmt))
      && resp.body == Join(resp.lines)
  {
    if pk !in s.journals {
      return Status(404);
    }
    var j := s.journals[pk];
    if j.author != requester {
      return Status(403);
    }
    var order := ExportOrder(s, pk);
    var entries := NumberEntries(s.posts, order, fmt);
    var header := Header(j, s.users[j.author], fmt);
    var lines := header + entries;
    assert lines[..6] == header;
    assert forall k :: 0 <= k < |order| ==> lines[6 + k] == entries[k];
    return Attachment(lines, Join(lines));
  }
}

=== FILE: invariants.dfy ===
/** Store invariants every request keeps: the database constraints, "a
    public journal has no PIN hash", "the posts of a private journal are
    private", and "nobody follows themself". */
module Invariants {
  import opened Base
  import Vault
  import opened Models
  import opened Serializers
  import opened Views

  /** No stored follow edge points from a user to themself. The database
      does not enforce this; the follow serializer does. */
  ghost predicate NoSelfFollow(s: Store) {
    forall i :: 0 <= i < |s.follows| ==> s.follows[i].user != s.follows[i].following
  }

  ghost predicate Consistent(s: Store) {
    && Valid(s)
    && PinOnlyWhenPrivate(s)
    && PrivateJournalsHavePrivatePosts(s)
    && NoSelfFollow(s)
  }

  // ---------------------------------------------------------------------
  // Journal.save and Post.save

  /** Journal.save keeps the invariants: the cascade makes the posts of a
      journal that became private private, and a public journal is stored
      without PIN. */
  lemma SaveJournalKeepsConsistent(s: Store, pk: Option<Id>, j: Journal, now: Time)
    requires Consistent(s)
    ensures var r := SaveJournal(s, pk, j, now); r.Ok? ==> Consistent(r.value.store)
  {
    var r := SaveJournal(s, pk, j, now);
    if r.Ok? {
      var t, id := r.value.store, r.value.id;
      forall p | p in t.posts && t.posts[p].journal in t.journals
        ensures t.journals[t.posts[p].journal].isPrivate ==> t.posts[p].isPrivate
      {
        assert p in s.posts;
        if t.posts[p].journal != id {
          assert t.posts[p].isPrivate == s.posts[p].isPrivate;
        }
      }
    }
  }

  /** Post.save keeps the invariants: a post written under a private journal
      is private. */
  lemma SavePostKeepsConsistent(s: Store, pk: Option<Id>, p: Post, now: Time)
    requires Consistent(s)
    requires pk.Some? ==> pk.value in s.posts
    ensures var r := SavePost(s, pk, p, now); r.Ok? ==> Consistent(r.value.store)
  {
  }

  // ---------------------------------------------------------------------
  // The views

  lemma PostCreateKeepsConsistent(s: Store, requester: UserId, req: PostRequest, now: Time)
    requires Consistent(s) && requester in s.users
    ensures var r := PostCreate(s, requester, req, now); r.Ok? ==> Consistent(r.value.store)
  {
    if PostFieldsError(s, req, false).None? {
      var p := Post(PostText(req, []), now, requester, req.image.GetOr(None), req.isPrivate.GetOr(false),
                    req.journal.value);
      SavePostKeepsConsistent(s, None, p, now);
    }
  }

  lemma PostUpdateKeepsConsistent(s: Store, requester: UserId, id: Id, req: PostRequest, partial: bool, now: Time)
    requires Consistent(s) && requester in s.users
    ensures var r := PostUpdate(s, requester, id, req, partial, now); r.Ok? ==> Consistent(r.value.store)
  {
    if id in s.posts && PostFieldsError(s, req, partial).None? && s.posts[id].author == requester {
      var before := s.posts[id];
      var p := before.(text := PostText(req, before.text),
                       image := req.image.GetOr(before.image),
                       isPrivate := req.isPrivate.GetOr(before.isPrivate),
                       journal := req.journal.GetOr(before.journal),
                       author := requester);
      SavePostKeepsConsistent(s, Some(id), p, now);
    }
  }

  lemma PostDestroyKeepsConsistent(s: Store, requester: UserId, id: Id)
    requires Consistent(s)
    ensures var r := PostDestroy(s, requester, id); r.Ok? ==> Consistent(r.value)
  {
  }

  lemma CommentCreateKeepsConsistent(s: Store, requester: UserId, postId: Id, req: CommentRequest)
    requires Consistent(s) && requester in s.users
    ensures var r := CommentCreate(s, requester, postId, req); r.Ok? ==> Consistent(r.value.store)
  {
  }

  lemma CommentUpdateKeepsConsistent(s: Store, requester: UserId, postId: Id, commentId: Id,
                                     req: CommentRequest, partial: bool)
    requires Consistent(s) && requester in s.users
    ensures var r := CommentUpdate(s, requester, postId, commentId, req, partial);
      r.Ok? ==> Consistent(r.value.store)
  {
  }

  lemma CommentDestroyKeepsConsistent(s: Store, requester: UserId, postId: Id, commentId: Id)
    requires Consistent(s)
    ensures var r := CommentDestroy(s, requester, postId, commentId); r.Ok? ==> Consistent(r.value)
  {
  }

  lemma JournalCreateKeepsConsistent(s: Store, requester: UserId, req: JournalRequest, now: Time,
                                     kdf: Vault.Kdf, salt: Vault.Salt)
    requires Consistent(s) && requester in s.users
    ensures var r := JournalCreate(s, requester, req, now, kdf, salt);
      r.Ok? ==> Consistent(r.value.saved.store)
  {
    if ValidateJournal(req, false).Ok? {
      var data := ValidateJournal(req, false).value;
      var row := Journal(data.title.value, data.description.GetOr(None), now, now, requester,
                         data.image.GetOr(None), data.isPrivate.GetOr(false), None);
      SaveJournalKeepsConsistent(s, None, row, now);
    }
  }

  lemma JournalUpdateKeepsConsistent(s: Store, requester: UserId, id: Id, req: JournalRequest, partial: bool,
                                     now: Time, kdf: Vault.Kdf, salt: Vault.Salt)
    requires Consistent(s) && requester in s.users
    ensures var r := JournalUpdate(s, requester, id, req, partial, now, kdf, salt);
      r.Ok? ==> Consistent(r.value.store)
  {
    if id in s.journals && ValidateJournal(req, partial).Ok? && s.journals[id].author == requester {
      var data := ValidateJournal(req, partial).value;
      var withPin := SetPin(s.journals[id], data.pin, kdf, salt);
      SaveJournalKeepsConsistent(s, Some(id), ApplyJournalData(withPin, data, requester), now);
    }
  }

  lemma JournalDestroyKeepsConsistent(s: Store, requester: UserId, id: Id)
    requires Consistent(s)
    ensures var r := JournalDestroy(s, requester, id); r.Ok? ==> Consistent(r.value)
  {
  }

  lemma FollowCreateKeepsConsistent(s: Store, requester: UserId, following: UserId)
    requires Consistent(s) && requester in s.users
    ensures var r := FollowCreate(s, requester, following); r.Ok? ==> Consistent(r.value)
  {
  }
}

=== FILE: models.dfy ===
/** The persisted records of the journals backend (journals, posts, comments
    and follow edges) and the save hooks the models attach to them: the
    privacy cascade and PIN clearing of Journal.save, the privacy forcing of
    Post.save, the PIN helpers set_pin / check_pin, and the database
    constraints (foreign keys, unique follow pairs, delete cascades). */
module Models {
  import opened Base
  import Vault

  datatype Journal = Journal(
    title: string,
    description: Option<string>,
    pubDate: Time,          // set once, when the row is inserted
    lastModified: Time,     // set on every save
    author: UserId,
    image: Option<ImageRef>,
    isPrivate: bool,
    pinCode: Option<Vault.PinHash>)

  datatype Post = Post(
    text: string,
    pubDate: Time,          // set once, when the row is inserted
    author: UserId,
    image: Option<ImageRef>,
    isPrivate: bool,
    journal: Id)

  datatype Comment = Comment(author: UserId, post: Id, text: string)

  /** `user` follows `following`. */
  datatype Follow = Follow(user: UserId, following: UserId)

  /** The database: users by key (with their usernames), the three keyed
      tables, the follow table in insertion order, and the next free key. */
  datatype Store = Store(
    users: map<UserId, string>,
    journals: map<Id, Journal>,
    posts: map<Id, Post>,
    comments: map<Id, Comment>,
    follows: seq<Follow>,
    nextId: nat)

  /** A row written by a save, and the store after it. */
  datatype Saved = Saved(store: Store, id: Id)

  // ---------------------------------------------------------------------
  // Database constraints

  /** unique_together = ('user', 'following'). */
  ghost predicate UniqueFollows(fs: seq<Follow>) {
    forall i, j :: 0 <= i < j < |fs| ==> fs[i] != fs[j]
  }

  /** What the database itself guarantees: every foreign key resolves, keys
      are handed out from 1 upwards (auto-increment never yields 0, so a
      stored row's key is always truthy), every key is below the next free
      key, and follow pairs are unique. */
  ghost predicate Valid(s: Store) {
    && s.nextId > 0
    && (forall id :: id in s.journals ==> 0 < id < s.nextId && s.journals[id].author in s.users)
    && (forall id :: id in s.posts ==>
          0 < id < s.nextId && s.posts[id].author in s.users && s.posts[id].journal in s.journals)
    && (forall id :: id in s.comments ==>
          0 < id < s.nextId && s.comments[id].author in s.users && s.comments[id].post in s.posts)
    && (forall i :: 0 <= i < |s.follows| ==>
          s.follows[i].user in s.users && s.follows[i].following in s.users)
    && UniqueFollows(s.follows)
  }

  /** A journal that is not private carries no PIN hash. */
  ghost predicate PinOnlyWhenPrivate(s: Store) {
    forall id :: id in s.journals && !s.journals[id].isPrivate ==> s.journals[id].pinCode.None?
  }

  /** Every post of a private journal is private. Only this direction is
      kept: a public journal may hold private posts. */
  ghost predicate PrivateJournalsHavePrivatePosts(s: Store) {
    forall id :: id in s.posts && s.posts[id].journal in s.journals ==>
      (s.journals[s.posts[id].journal].isPrivate ==> s.posts[id].isPrivate)
  }

  /** `after` is `before` with is_private of exactly the posts of `journal`
      set to `value` (a queryset update: nothing else is touched). */
  ghost predicate Cascaded(before: map<Id, Post>, after: map<Id, Post>, journal: Id, value: bool) {
    && after.Keys == before.Keys
    && forall id :: id in before ==>
         && after[id].(isPrivate := before[id].isPrivate) == before[id]
         && (before[id].journal == journal ==> after[id].isPrivate == value)
         && (before[id].journal != journal ==> after[id].isPrivate == before[id].isPrivate)
  }

  /** The users, comments and follows tables are equal in the two stores.
      The journals and posts tables and the key counter are not
      constrained: each caller states its own clauses about them. */
  ghost predicate SameOutsideJournals(s: Store, t: Store) {
    t.users == s.users && t.comments == s.comments && t.follows == s.follows
  }

  // ---------------------------------------------------------------------
  // Journal

  /** self.posts.update(is_private=value). */
  function CascadePrivacy(posts: map<Id, Post>, journal: Id, value: bool): (r: map<Id, Post>)
    ensures Cascaded(posts, r, journal, value)
  {
    map id | id in posts :: if posts[id].journal == journal then posts[id].(isPrivate := value) else posts[id]
  }

  /** Journal.save. With a key (`pk` = Some) the previous row is read; when
      its is_private differs from the new one, every post of the journal is
      bulk-updated to the new value. A journal saved as not private always
      loses its PIN hash. Then the row is written: inserted under a fresh key
      when `pk` is None, overwritten otherwise. */
  function SaveJournal(s: Store, pk: Option<Id>, j: Journal, now: Time): (r: Result<Saved>)
    ensures pk.Some? && pk.value !in s.journals ==> r == Err(DoesNotExist)
    ensures (pk.None? || pk.value in s.journals) && j.author !in s.users ==> r == Err(IntegrityError)
    ensures r.Ok? <==> (pk.None? || pk.value in s.journals) && j.author in s.users
    ensures r.Ok? ==>
      var t, id := r.value.store, r.value.id;
      && id in t.journals
      && t.journals == s.journals[id := t.journals[id]]
      && SameOutsideJournals(s, t)
      // the stored row is the caller's journal, but for the timestamps and the PIN
      && t.journals[id].(pubDate := j.pubDate, lastModified := j.lastModified, pinCode := j.pinCode) == j
      && t.journals[id].lastModified == now
      // a private journal keeps the PIN it was given; a public one has none
      && (t.journals[id].isPrivate ==> t.journals[id].pinCode == j.pinCode)
      && (!t.journals[id].isPrivate ==> t.journals[id].pinCode.None?)
      // insertion: fresh key, no post touched
      && (pk.None? ==>
            s.nextId <= id < t.nextId && t.journals[id].pubDate == now && t.posts == s.posts)
      // update: the posts follow a change of is_private, and only a change
      && (pk.Some? ==>
            && id == pk.value && t.journals[id].pubDate == j.pubDate && t.nextId == s.nextId
            && (s.journals[id].isPrivate == j.isPrivate ==> t.posts == s.posts)
            && (s.journals[id].isPrivate != j.isPrivate ==> Cascaded(s.posts, t.posts, id, j.isPrivate)))
  {
    var cleared := if j.isPrivate then j else j.(pinCode := None);
    match pk
    case None =>
      if j.author !in s.users then Err(IntegrityError)
      else
        var id := s.nextId;
        var row := cleared.(pubDate := now, lastModified := now);
        Ok(Saved(s.(journals := s.journals[id := row], nextId := s.nextId + 1), id))
    case Some(id) =>
      if id !in s.journals then Err(DoesNotExist)
      else
        var previous := s.journals[id];
        var posts := if previous.isPrivate != j.isPrivate then CascadePrivacy(s.posts, id, j.isPrivate) else s.posts;
        if j.author !in s.users then Err(IntegrityError)
        else
          var row := cleared.(lastModified := now);
          Ok(Saved(s.(journals := s.journals[id := row], posts := posts), id))
  }

  /** Python truthiness of an optional string: present and non-empty. */
  predicate Truthy(raw: Option<string>) {
    raw.Some? && raw.value != []
  }

  /** Journal.set_pin: a non-empty PIN is stored hashed under `salt`; no PIN
      or an empty one clears the hash. Only the in-memory journal changes. */
  function SetPin(j: Journal, raw: Option<string>, kdf: Vault.Kdf, salt: Vault.Salt): (r: Journal)
    ensures r.(pinCode := j.pinCode) == j
    ensures r.pinCode.None? <==> !Truthy(raw)
    ensures Truthy(raw) ==> r.pinCode == Some(Vault.MakePassword(kdf, salt, raw.value))
  {
    if Truthy(raw) then j.(pinCode := Some(Vault.MakePassword(kdf, salt, raw.value)))
    else j.(pinCode := None)
  }

  /** Journal.check_pin: a journal without a PIN hash accepts any PIN. */
  function CheckPin(j: Journal, raw: string, kdf: Vault.Kdf): (ok: bool)
    ensures j.pinCode.None? ==> ok
  {
    match j.pinCode
    case None => true
    case Some(h) => Vault.CheckPassword(kdf, raw, h)
  }

  /** The PIN set by set_pin is accepted by check_pin. */
  lemma CheckPinAfterSetPin(j: Journal, raw: string, kdf: Vault.Kdf, salt: Vault.Salt)
    ensures CheckPin(SetPin(j, Some(raw), kdf, salt), raw, kdf)
  {
    if raw != [] {
      Vault.CheckMade(kdf, salt, raw);
    }
  }

  /** Under a collision-free hash, check_pin after set_pin(raw) accepts only
      `raw`. */
  lemma {:induction false} CheckPinRejectsOthers(j: Journal, raw: string, other: string, kdf: Vault.Kdf, salt: Vault.Salt)
    requires Vault.CollisionFree(kdf)
    requires raw != [] && other != raw
    ensures !CheckPin(SetPin(j, Some(raw), kdf, salt), other, kdf)
  {
    if CheckPin(SetPin(j, Some(raw), kdf, salt), other, kdf) {
      Vault.CheckOnlyMade(kdf, salt, raw, other);
    }
  }

  // ---------------------------------------------------------------------
  // Post

  /** Post.save: a post of a private journal is stored private; a post of a
      public journal keeps the caller's is_private. `self.journal` must
      resolve; the author must exist. */
  function SavePost(s: Store, pk: Option<Id>, p: Post, now: Time): (r: Result<Saved>)
    requires pk.Some? ==> pk.value in s.posts
    ensures p.journal !in s.journals ==> r == Err(DoesNotExist)
    ensures p.journal in s.journals && p.author !in s.users ==> r == Err(IntegrityError)
    ensures r.Ok? <==> p.journal in s.journals && p.author in s.users
    ensures r.Ok? ==>
      var t, id := r.value.store, r.value.id;
      && id in t.posts
      && t == s.(posts := s.posts[id := t.posts[id]], nextId := t.nextId)
      && t.posts[id].(isPrivate := p.isPrivate, pubDate := p.pubDate) == p
      && (s.journals[p.journal].isPrivate ==> t.posts[id].isPrivate)
      && (!s.journals[p.journal].isPrivate ==> t.posts[id].isPrivate == p.isPrivate)
      && (pk.None? ==> s.nextId <= id < t.nextId && t.posts[id].pubDate == now)
      && (pk.Some? ==> id == pk.value && t.posts[id].pubDate == p.pubDate && t.nextId == s.nextId)
  {
    if p.journal !in s.journals then Err(DoesNotExist)
    else
      var forced := if s.journals[p.journal].isPrivate then p.(isPrivate := true) else p;
      if p.author !in s.users then Err(IntegrityError)
      else
        match pk
        case None =>
          var id := s.nextId;
          Ok(Saved(s.(posts := s.posts[id := forced.(pubDate := now)], nextId := s.nextId + 1), id))
        case Some(id) =>
          Ok(Saved(s.(posts := s.posts[id := forced]), id))
  }

  // ---------------------------------------------------------------------
  // Comment

  /** Comment.save: a plain insert or overwrite, checked by the foreign keys. */
  function SaveComment(s: Store, pk: Option<Id>, c: Comment): (r: Result<Saved>)
    requires pk.Some? ==> pk.value in s.comments
    ensures r.Ok? <==> c.post in s.posts && c.author in s.users
    ensures r.Err? ==> r.error == IntegrityError
    ensures r.Ok? ==>
      var t, id := r.value.store, r.value.id;
      && t == s.(comments := s.comments[id := c], nextId := t.nextId)
      && (pk.None? ==> s.nextId <= id < t.nextId)
      && (pk.Some? ==> id == pk.value && t.nextId == s.nextId)
  {
    if c.post !in s.posts || c.author !in s.users then Err(IntegrityError)
    else
      match pk
      case None => Ok(Saved(s.(comments := s.comments[s.nextId := c], nextId := s.nextId + 1), s.nextId))
      case Some(id) => Ok(Saved(s.(comments := s.comments[id := c]), id))
  }

  // ---------------------------------------------------------------------
  // Follow

  /** Follow.objects.create: the unique pair constraint and the foreign keys
      refuse the insert with an integrity error; otherwise the row is added. */
  function InsertFollow(s: Store, f: Follow): (r: Result<Store>)
    ensures r.Err? <==> f in s.follows || f.user !in s.users || f.following !in s.users
    ensures r.Err? ==> r.error == IntegrityError
    ensures r.Ok? ==> r.value == s.(follows := s.follows + [f])
  {
    if f in s.follows || f.user !in s.users || f.following !in s.users then Err(IntegrityError)
    else Ok(s.(follows := s.follows + [f]))
  }

  // ---------------------------------------------------------------------
  // Deletes (on_delete=CASCADE)

  function DeleteComment(s: Store, id: Id): (t: Store)
    requires id in s.comments
    ensures t.comments.Keys == s.comments.Keys - {id}
    ensures forall c :: c in t.comments ==> c in s.comments && t.comments[c] == s.comments[c]
    ensures t == s.(comments := t.comments)
  {
    s.(comments := s.comments - {id})
  }

  /** Deleting a post deletes its comments. */
  function DeletePost(s: Store, id: Id): (t: Store)
    requires id in s.posts
    ensures t.posts.Keys == s.posts.Keys - {id}
    ensures forall c :: c in s.comments ==> (c in t.comments <==> s.comments[c].post != id)
    ensures forall p :: p in t.posts ==> p in s.posts && t.posts[p] == s.posts[p]
    ensures forall c :: c in t.comments ==> c in s.comments && t.comments[c] == s.comments[c]
    ensures t == s.(posts := t.posts, comments := t.comments)
  {
    s.(posts := s.posts - {id},
       comments := map c | c in s.comments && s.comments[c].post != id :: s.comments[c])
  }

  /** `post` is a stored post of journal `journal`. */
  predicate PostOfJournal(s: Store, post: Id, journal: Id) {
    post in s.posts && s.posts[post].journal == journal
  }

  /** Deleting a journal deletes its posts and, through them, their comments. */
  function DeleteJournal(s: Store, id: Id): (t: Store)
    requires id in s.journals
    ensures t.journals.Keys == s.journals.Keys - {id}
    ensures forall p :: p in s.posts ==> (p in t.posts <==> s.posts[p].journal != id)
    ensures forall c :: c in s.comments ==>
      (c in t.comments <==> !PostOfJournal(s, s.comments[c].post, id))
    ensures forall k :: k in t.journals ==> k in s.journals && t.journals[k] == s.journals[k]
    ensures forall p :: p in t.posts ==> p in s.posts && t.posts[p] == s.posts[p]
    ensures forall c :: c in t.comments ==> c in s.comments && t.comments[c] == s.comments[c]
    ensures t == s.(journals := t.journals, posts := t.posts, comments := t.comments)
  {
    s.(journals := s.journals - {id},
       posts := map p | p in s.posts && !PostOfJournal(s, p, id) :: s.posts[p],
       comments := map c | c in s.comments && !PostOfJournal(s, s.comments[c].post, id) :: s.comments[c])
  }
}

=== FILE: serializers.dfy ===
/** The journal serializer's PIN handling (the write-only `pin` field with
    its length bounds, validate_pin, create, update), the journal's outward
    representation, and the follow serializer's self-follow check. */
module Serializers {
  import opened Base
  import Vault
  import opened Models

  // ---------------------------------------------------------------------
  // The `pin` field

  /** The pin as it arrives in a request body: missing, JSON null, or text. */
  datatype PinInput = Absent | Null | Text(raw: string)

  /** Whitespace stripped by the field: the ASCII characters Python's
      str.strip removes (tab to carriage return, the separators 0x1c-0x1f,
      and space). */
  predicate IsSpace(c: char) {
    9 <= c as int <= 13 || 28 <= c as int <= 32
  }

  /** A well-formed PIN: four to six digits. */
  predicate IsPin(p: string) {
    4 <= |p| <= 6 && AllDigits(p)
  }

  function TrimStart(s: string): (r: string)
    ensures |r| <= |s| && r == s[|s| - |r|..]
    ensures r == [] || !IsSpace(r[0])
    ensures forall k :: 0 <= k < |s| - |r| ==> IsSpace(s[k])
  {
    if |s| > 0 && IsSpace(s[0]) then TrimStart(s[1..]) else s
  }

  function TrimEnd(s: string): (r: string)
    ensures |r| <= |s| && r == s[..|r|]
    ensures r == [] || !IsSpace(r[|r| - 1])
    ensures forall k :: |r| <= k < |s| ==> IsSpace(s[k])
  {
    if |s| > 0 && IsSpace(s[|s| - 1]) then TrimEnd(s[..|s| - 1]) else s
  }

  /** The number of leading whitespace characters. */
  function Lead(s: string): (n: nat)
    ensures n <= |s|
    ensures forall k :: 0 <= k < n ==> IsSpace(s[k])
    ensures n == |s| || !IsSpace(s[n])
  {
    |s| - |TrimStart(s)|
  }

  /** str.strip, as the field applies it (trim_whitespace): the result is
      the slice of `s` starting after its leading whitespace, followed in
      `s` by whitespace only, and neither starts nor ends with whitespace. */
  function Trim(s: string): (r: string)
    ensures Lead(s) + |r| <= |s| && r == s[Lead(s)..Lead(s) + |r|]
    ensures forall k :: Lead(s) + |r| <= k < |s| ==> IsSpace(s[k])
    ensures r == [] || (!IsSpace(r[0]) && !IsSpace(r[|r| - 1]))
  {
    TrimEnd(TrimStart(s))
  }

  /** A text is blank when it strips to nothing. */
  lemma {:induction false} TrimBlank(s: string)
    ensures Trim(s) == [] <==> forall k :: 0 <= k < |s| ==> IsSpace(s[k])
  {
    var r, i := Trim(s), Lead(s);
    if r != [] {
      assert s[i] == r[0];
    }
  }

  /** A text field with the framework's default trim_whitespace: the value
      is stripped, and one that strips to nothing is refused unless the
      field allows blank values. */
  function CleanText(raw: string, allowBlank: bool): (r: Result<string>)
    ensures r.Err? <==> !allowBlank && forall k :: 0 <= k < |raw| ==> IsSpace(raw[k])
    ensures r.Err? <==> !allowBlank && Trim(raw) == []
    ensures r.Err? ==> r.error == ValidationError(Blank)
    ensures r.Ok? ==> r.value == Trim(raw)
  {
    TrimBlank(raw);
    if !allowBlank && Trim(raw) == [] then Err(ValidationError(Blank)) else Ok(Trim(raw))
  }

  /** JournalSerializer.validate_pin: a non-empty value that is not all
      digits, or is shorter than four, is refused; an empty value becomes
      None; anything else passes unchanged. */
  function ValidatePin(value: string): (r: Result<Option<string>>)
    ensures r.Err? ==> r.error == ValidationError(PinFormat)
    ensures r == Ok(None) <==> value == []
    ensures r == Ok(Some(value)) <==> value != [] && AllDigits(value) && |value| >= 4
    ensures r.Ok? && r.value.Some? ==> r.value.value == value
  {
    if value != [] && (!AllDigits(value) || |value| < 4) then Err(ValidationError(PinFormat))
    else if value == [] then Ok(None)
    else Ok(Some(value))
  }

  /** The `pin` field followed by validate_pin. A missing pin is skipped; a
      null is refused; text is stripped, and a blank result is allowed and
      becomes None. Otherwise the min_length 4 and max_length 6 bounds run,
      then validate_pin. */
  function PinField(input: PinInput): (r: Result<Option<string>>)
    ensures input.Absent? ==> r == Ok(None)
    ensures input.Null? ==> r == Err(ValidationError(PinNull))
    ensures input.Text? ==>
      var t := Trim(input.raw);
      && (r == Ok(None) <==> t == [])
      && (r == Ok(Some(t)) <==> IsPin(t))
      && (0 < |t| < 4 ==> r == Err(ValidationError(PinTooShort)))
      && (|t| > 6 ==> r == Err(ValidationError(PinTooLong)))
      && (4 <= |t| <= 6 && !AllDigits(t) ==> r == Err(ValidationError(PinFormat)))
    ensures r.Ok? && r.value.Some? ==> input.Text? && r.value.value == Trim(input.raw) && IsPin(r.value.value)
  {
    match input
    case Absent => Ok(None)
    case Null => Err(ValidationError(PinNull))
    case Text(raw) =>
      var t := Trim(raw);
      if t == [] then ValidatePin(t)
      else if |t| < 4 then Err(ValidationError(PinTooShort))
      else if |t| > 6 then Err(ValidationError(PinTooLong))
      else ValidatePin(t)
  }

  /** A pin the field accepts is exactly a stripped 4-6 digit string or a
      blank one. */
  lemma PinFieldAccepts(raw: string)
    ensures PinField(Text(raw)).Ok? <==> Trim(raw) == [] || IsPin(Trim(raw))
  {
  }

  // ---------------------------------------------------------------------
  // Journal serializer

  /** A journal request body. `author` is the client's value for a read-only
      field: it is never used. */
  datatype JournalRequest = JournalRequest(
    title: Option<string>,
    description: Option<Option<string>>,
    image: Option<Option<ImageRef>>,
    isPrivate: Option<bool>,
    pin: PinInput,
    author: Option<UserId>)

  /** validated_data: the writable fields that were sent, and the pin after
      validation (None when missing or blank). */
  datatype JournalData = JournalData(
    title: Option<string>,
    description: Option<Option<string>>,
    image: Option<Option<ImageRef>>,
    isPrivate: Option<bool>,
    pin: Option<string>)

  /** The description field (nullable, blank allowed): null stays null,
      text is stripped. */
  function CleanDescription(d: Option<Option<string>>): (r: Option<Option<string>>)
    ensures r.Some? <==> d.Some?
    ensures d.Some? ==> (r.value.Some? <==> d.value.Some?)
    ensures d.Some? && d.value.Some? ==> r.value.value == Trim(d.value.value)
  {
    match d
    case Some(Some(text)) => Some(Some(CleanText(text, true).value))
    case other => other
  }

  /** is_valid: `title` is required unless the update is partial, and it is
      stripped and may not be blank; `description` is stripped; the pin runs
      through its field. Read-only fields are dropped. */
  function ValidateJournal(req: JournalRequest, partial: bool): (r: Result<JournalData>)
    ensures !partial && req.title.None? ==> r == Err(ValidationError(Required))
    ensures req.title.Some? && Trim(req.title.value) == [] ==> r == Err(ValidationError(Blank))
    ensures r.Ok? <==>
      && (partial || req.title.Some?)
      && (req.title.Some? ==> Trim(req.title.value) != [])
      && PinField(req.pin).Ok?
    ensures
      ((partial || req.title.Some?) && (req.title.Some? ==> Trim(req.title.value) != [])
       && PinField(req.pin).Err?) ==> r == Err(PinField(req.pin).error)
    ensures r.Err? ==> r.error.ValidationError?
    ensures r.Ok? ==>
      && (r.value.title.Some? <==> req.title.Some?)
      && (req.title.Some? ==> r.value.title.value == Trim(req.title.value))
      && r.value.description == CleanDescription(req.description)
      && r.value.image == req.image && r.value.isPrivate == req.isPrivate
      && r.value.pin == PinField(req.pin).value
      && (!partial ==> r.value.title.Some?)
  {
    if !partial && req.title.None? then Err(ValidationError(Required))
    else if req.title.Some? && CleanText(req.title.value, false).Err? then Err(ValidationError(Blank))
    else
      match PinField(req.pin)
      case Err(e) => Err(e)
      case Ok(pin) =>
        var title := if req.title.Some? then Some(CleanText(req.title.value, false).value) else None;
        Ok(JournalData(title, CleanDescription(req.description), req.image, req.isPrivate, pin))
  }

  /** ModelSerializer.update's attribute copy: every field that was sent
      replaces the instance's; the author passed by the view is set too. */
  function ApplyJournalData(j: Journal, data: JournalData, author: UserId): (r: Journal)
    ensures r.title == data.title.GetOr(j.title)
    ensures r.description == data.description.GetOr(j.description)
    ensures r.image == data.image.GetOr(j.image)
    ensures r.isPrivate == data.isPrivate.GetOr(j.isPrivate)
    ensures r.author == author
    ensures r.pubDate == j.pubDate && r.lastModified == j.lastModified && r.pinCode == j.pinCode
  {
    j.(title := data.title.GetOr(j.title),
       description := data.description.GetOr(j.description),
       image := data.image.GetOr(j.image),
       isPrivate := data.isPrivate.GetOr(j.isPrivate),
       author := author)
  }

  /** The outcome of create: the row as saved, and the in-memory instance
      the serializer returns. */
  datatype Created = Created(saved: Saved, instance: Journal)

  /** JournalSerializer.create: the pin is popped, the journal is inserted
      (Journal.save runs, the model default pin_code None is stored), and
      only then is set_pin called on the instance, which is not saved again.
      The stored row therefore never carries the PIN. */
  function Create(s: Store, data: JournalData, author: UserId, now: Time,
                  kdf: Vault.Kdf, salt: Vault.Salt): (r: Result<Created>)
    requires data.title.Some?
    ensures r.Ok? <==> author in s.users
    ensures r.Ok? ==>
      var t, id := r.value.saved.store, r.value.saved.id;
      && id in t.journals
      && t.journals == s.journals[id := t.journals[id]]
      && t.posts == s.posts && SameOutsideJournals(s, t)
      && s.nextId <= id < t.nextId
      && t.journals[id].author == author
      && t.journals[id].title == data.title.value
      && t.journals[id].description == data.description.GetOr(None)
      && t.journals[id].image == data.image.GetOr(None)
      && t.journals[id].isPrivate == data.isPrivate.GetOr(false)
      && t.journals[id].pubDate == now && t.journals[id].lastModified == now
      // the stored row has no PIN; only the returned instance does
      && t.journals[id].pinCode.None?
      && r.value.instance.(pinCode := None) == t.journals[id]
      && (r.value.instance.pinCode.Some? <==> Truthy(data.pin))
      && (Truthy(data.pin) ==> r.value.instance.pinCode == Some(Vault.MakePassword(kdf, salt, data.pin.value)))
  {
    var row := Journal(data.title.value, data.description.GetOr(None), now, now, author,
                         data.image.GetOr(None), data.isPrivate.GetOr(false), None);
    match SaveJournal(s, None, row, now)
    case Err(e) => Err(e)
    case Ok(saved) => Ok(Created(saved, SetPin(saved.store.journals[saved.id], data.pin, kdf, salt)))
  }

  /** JournalSerializer.update: set_pin runs with the popped pin (None when
      it was not sent), the sent fields are copied, and the instance is
      saved through Journal.save. */
  function Update(s: Store, id: Id, data: JournalData, author: UserId, now: Time,
                  kdf: Vault.Kdf, salt: Vault.Salt): (r: Result<Saved>)
    requires id in s.journals
    ensures r.Ok? <==> author in s.users
    ensures r.Ok? ==>
      var t, before := r.value.store, s.journals[id];
      && r.value.id == id && id in t.journals
      && t.journals == s.journals[id := t.journals[id]]
      && t.nextId == s.nextId
      && SameOutsideJournals(s, t)
      && t.journals[id].author == author
      && t.journals[id].title == data.title.GetOr(before.title)
      && t.journals[id].description == data.description.GetOr(before.description)
      && t.journals[id].image == data.image.GetOr(before.image)
      && t.journals[id].isPrivate == data.isPrivate.GetOr(before.isPrivate)
      && t.journals[id].pubDate == before.pubDate && t.journals[id].lastModified == now
      // the PIN is the one sent, hashed, and only on a private journal
      && (t.journals[id].pinCode.Some? <==> t.journals[id].isPrivate && Truthy(data.pin))
      && (t.journals[id].pinCode.Some? ==>
            t.journals[id].pinCode == Some(Vault.MakePassword(kdf, salt, data.pin.value)))
      // the posts follow a change of is_private, and only a change
      && (before.isPrivate == t.journals[id].isPrivate ==> t.posts == s.posts)
      && (before.isPrivate != t.journals[id].isPrivate ==>
            Cascaded(s.posts, t.posts, id, t.journals[id].isPrivate))
  {
    var withPin := SetPin(s.journals[id], data.pin, kdf, salt);
    SaveJournal(s, Some(id), ApplyJournalData(withPin, data, author), now)
  }

  /** An update that does not send a pin leaves the journal without one,
      whatever it had before. */
  lemma UpdateWithoutPinClears(s: Store, id: Id, data: JournalData, author: UserId, now: Time,
                               kdf: Vault.Kdf, salt: Vault.Salt)
    requires id in s.journals && author in s.users
    requires data.pin.None?
    ensures Update(s, id, data, author, now, kdf, salt).Ok?
    ensures Update(s, id, data, author, now, kdf, salt).value.store.journals[id].pinCode.None?
  {
  }

  /** After create the stored journal has no PIN, even when a valid one was
      sent and the journal is private. */
  lemma CreateDropsPin(s: Store, data: JournalData, author: UserId, now: Time,
                       kdf: Vault.Kdf, salt: Vault.Salt)
    requires data.title.Some? && author in s.users
    requires data.isPrivate == Some(true) && Truthy(data.pin)
    ensures Create(s, data, author, now, kdf, salt).Ok?
    ensures var c := Create(s, data, author, now, kdf, salt).value;
      && c.saved.store.journals[c.saved.id].isPrivate
      && c.saved.store.journals[c.saved.id].pinCode.None?
      && c.instance.pinCode.Some?
  {
  }

  /** The journal as sent to clients: the declared fields, with the author
      by username. There is no place in it for the PIN or its hash. */
  datatype JournalView = JournalView(
    id: Id,
    title: string,
    description: Option<string>,
    pubDate: Time,
    lastModified: Time,
    author: string,
    image: Option<ImageRef>,
    isPrivate: bool)

  /** JournalSerializer.to_representation. */
  function Represent(users: map<UserId, string>, id: Id, j: Journal): (v: JournalView)
    requires j.author in users
    ensures v.id == id && v.author == users[j.author]
    ensures v.title == j.title && v.description == j.description && v.image == j.image
    ensures v.pubDate == j.pubDate && v.lastModified == j.lastModified && v.isPrivate == j.isPrivate
  {
    JournalView(id, j.title, j.description, j.pubDate, j.lastModified, users[j.author], j.image, j.isPrivate)
  }

  /** Two journals that differ only in their PIN hash look the same to
      clients: the representation reveals nothing about the PIN. */
  lemma RepresentIgnoresPin(users: map<UserId, string>, id: Id, j: Journal, h: Option<Vault.PinHash>)
    requires j.author in users
    ensures Represent(users, id, j) == Represent(users, id, j.(pinCode := h))
  {
  }

  // ---------------------------------------------------------------------
  // Follow serializer

  /** FollowSerializer: `following` must name an existing user (the slug
      field's lookup), and validate refuses the requester themself. */
  function ValidateFollow(s: Store, requester: UserId, following: UserId): (r: Result<Follow>)
    ensures following !in s.users ==> r == Err(ValidationError(UnknownUser))
    ensures following in s.users && following == requester ==> r == Err(ValidationError(SelfFollow))
    ensures r.Ok? <==> following in s.users && following != requester
    ensures r.Ok? ==> r.value.user == requester && r.value.following == following
  {
    if following !in s.users then Err(ValidationError(UnknownUser))
    else if following == requester then Err(ValidationError(SelfFollow))
    else Ok(Follow(requester, following))
  }
}

=== FILE: vault.dfy ===
/** The credential hasher behind Django's make_password / check_password,
    used for journal PINs. The key-derivation function is a parameter: the
    model holds for every choice of it, and the random salt is an input. */
module Vault {

  type Salt = nat
  type Digest = string

  /** A key-derivation function: salt and raw secret to a digest. */
  type Kdf = (Salt, string) -> Digest

  /** The stored form of a secret: its salt and the derived digest. It has
      no field holding the raw secret. */
  datatype PinHash = PinHash(salt: Salt, digest: Digest)

  /** A key-derivation function that never maps two secrets to one digest
      under the same salt. */
  ghost predicate CollisionFree(kdf: Kdf) {
    forall salt: Salt, a: string, b: string {:trigger kdf(salt, a), kdf(salt, b)} ::
      kdf(salt, a) == kdf(salt, b) ==> a == b
  }

  /** make_password: hash `raw` under a fresh salt. */
  function MakePassword(kdf: Kdf, salt: Salt, raw: string): (h: PinHash)
    ensures h.salt == salt
  {
    PinHash(salt, kdf(salt, raw))
  }

  /** check_password: does `raw` derive the stored digest under its salt?
      It succeeds exactly when hashing `raw` again under the stored salt
      reproduces the stored hash. */
  function CheckPassword(kdf: Kdf, raw: string, h: PinHash): (ok: bool)
    ensures ok <==> MakePassword(kdf, h.salt, raw) == h
  {
    kdf(h.salt, raw) == h.digest
  }

  /** A hash verifies the secret it was made from. */
  lemma CheckMade(kdf: Kdf, salt: Salt, raw: string)
    ensures CheckPassword(kdf, raw, MakePassword(kdf, salt, raw))
  {
  }

  /** Under a collision-free derivation, a hash verifies nothing but the
      secret it was made from. */
  lemma CheckOnlyMade(kdf: Kdf, salt: Salt, raw: string, other: string)
    requires CollisionFree(kdf)
    requires CheckPassword(kdf, other, MakePassword(kdf, salt, raw))
    ensures other == raw
  {
    assert kdf(salt, other) == kdf(salt, raw);
  }

  /** Two hashes of one secret under different salts are different values,
      and each verifies the secret. The first half holds only because the
      salt is stored inside the hash value (datatype injectivity), not
      because of any property of the derivation itself. */
  lemma SaltedHashesDiffer(kdf: Kdf, s1: Salt, s2: Salt, raw: string)
    requires s1 != s2
    ensures MakePassword(kdf, s1, raw) != MakePassword(kdf, s2, raw)
    ensures CheckPassword(kdf, raw, MakePassword(kdf, s1, raw))
    ensures CheckPassword(kdf, raw, MakePassword(kdf, s2, raw))
  {
  }
}

=== FILE: views.dfy ===
/** The API's write paths for posts, comments and journals (author-only
    update and delete, author stamping on create), and the follow endpoint
    (listing one's own edges, creating an edge). Every request is made by an
    authenticated user, `requester`. A failed request returns an error and
    no new store: the store is left as it was. */
module Views {
  import opened Base
  import Vault
  import opened Models
  import opened Serializers

  // ---------------------------------------------------------------------
  // Posts

  /** A post request body. `author` is the client's value for a read-only
      field: it is never used. */
  datatype PostRequest = PostRequest(
    text: Option<string>,
    image: Option<Option<ImageRef>>,
    isPrivate: Option<bool>,
    journal: Option<Id>,
    author: Option<UserId>)

  /** PostSerializer's field checks: `text` and `journal` are required unless
      the update is partial, a sent text is stripped and may not be blank,
      and a sent journal key must exist. */
  function PostFieldsError(s: Store, req: PostRequest, partial: bool): (e: Option<Reason>)
    ensures e.None? <==>
      && (partial || (req.text.Some? && req.journal.Some?))
      && (req.text.Some? ==> Trim(req.text.value) != [])
      && (req.journal.Some? ==> req.journal.value in s.journals)
    ensures req.text.Some? && Trim(req.text.value) == [] ==> e == Some(Blank)
  {
    if !partial && req.text.None? then Some(Required)
    else if req.text.Some? && CleanText(req.text.value, false).Err? then Some(Blank)
    else if !partial && req.journal.None? then Some(Required)
    else if req.journal.Some? && req.journal.value !in s.journals then Some(UnknownJournal)
    else None
  }

  /** The text a valid post request stores: the sent text, stripped. */
  function PostText(req: PostRequest, before: string): string {
    if req.text.Some? then Trim(req.text.value) else before
  }

  /** PostViewSet.perform_create: the post is saved with the requester as
      author, whatever the body said. The journal may belong to anyone. */
  function PostCreate(s: Store, requester: UserId, req: PostRequest, now: Time): (r: Result<Saved>)
    requires requester in s.users
    ensures r.Ok? <==> PostFieldsError(s, req, false).None?
    ensures r.Err? ==> r.error == ValidationError(PostFieldsError(s, req, false).value)
    ensures r.Ok? ==>
      var t, id := r.value.store, r.value.id;
      && s.nextId <= id < t.nextId && id in t.posts
      && t == s.(posts := s.posts[id := t.posts[id]], nextId := t.nextId)
      && t.posts[id].author == requester
      && t.posts[id].image == req.image.GetOr(None)
      && t.posts[id].text == Trim(req.text.value)
      && t.posts[id].journal == req.journal.value
      && t.posts[id].pubDate == now
      && t.posts[id].isPrivate == (s.journals[req.journal.value].isPrivate || req.isPrivate.GetOr(false))
  {
    match PostFieldsError(s, req, false)
    case Some(reason) => Err(ValidationError(reason))
    case None =>
      var p := Post(PostText(req, []), now, requester, req.image.GetOr(None), req.isPrivate.GetOr(false),
                    req.journal.value);
      SavePost(s, None, p, now)
  }

  /** PostViewSet update: the post is looked up (404), the body validated
      (400), and only then is the author compared with the requester (403).
      The post is saved through Post.save with the requester as author. */
  function PostUpdate(s: Store, requester: UserId, id: Id, req: PostRequest, partial: bool, now: Time)
    : (r: Result<Saved>)
    requires Valid(s) && requester in s.users
    ensures id !in s.posts ==> r == Err(NotFound)
    ensures id in s.posts && PostFieldsError(s, req, partial).Some? ==>
      r == Err(ValidationError(PostFieldsError(s, req, partial).value))
    ensures id in s.posts && PostFieldsError(s, req, partial).None? && s.posts[id].author != requester ==>
      r == Err(PermissionDenied)
    ensures r.Ok? <==>
      id in s.posts && PostFieldsError(s, req, partial).None? && s.posts[id].author == requester
    ensures r.Ok? ==>
      var t, before := r.value.store, s.posts[id];
      var journal := req.journal.GetOr(before.journal);
      && r.value.id == id && id in t.posts
      && t == s.(posts := s.posts[id := t.posts[id]])
      && t.posts[id].author == before.author == requester
      && (req.text.None? ==> t.posts[id].text == before.text)
      && (req.text.Some? ==> t.posts[id].text == Trim(req.text.value))
      && t.posts[id].image == req.image.GetOr(before.image)
      && t.posts[id].journal == journal
      && t.posts[id].pubDate == before.pubDate
      && t.posts[id].isPrivate == (s.journals[journal].isPrivate || req.isPrivate.GetOr(before.isPrivate))
  {
    if id !in s.posts then Err(NotFound)
    else if PostFieldsError(s, req, partial).Some? then
      Err(ValidationError(PostFieldsError(s, req, partial).value))
    else if s.posts[id].author != requester then Err(PermissionDenied)
    else
      var before := s.posts[id];
      var p := before.(text := PostText(req, before.text),
                       image := req.image.GetOr(before.image),
                       isPrivate := req.isPrivate.GetOr(before.isPrivate),
                       journal := req.journal.GetOr(before.journal),
                       author := requester);
      SavePost(s, Some(id), p, now)
  }

  /** PostViewSet.perform_destroy: only the author may delete; the post's
      comments go with it. */
  function PostDestroy(s: Store, requester: UserId, id: Id): (r: Result<Store>)
    ensures id !in s.posts ==> r == Err(NotFound)
    ensures id in s.posts && s.posts[id].author != requester ==> r == Err(PermissionDenied)
    ensures r.Ok? <==> id in s.posts && s.posts[id].author == requester
    ensures r.Ok? ==> id !in r.value.posts && r.value == DeletePost(s, id)
  {
    if id !in s.posts then Err(NotFound)
    else if s.posts[id].author != requester then Err(PermissionDenied)
    else Ok(DeletePost(s, id))
  }

  // ---------------------------------------------------------------------
  // Comments (nested under /posts/<post_id>/comments/)

  /** A comment request body. `post` and `author` are read-only fields: the
      client's values are never used. */
  datatype CommentRequest = CommentRequest(
    text: Option<string>,
    post: Option<Id>,
    author: Option<UserId>)

  /** CommentViewSet.get_object: the post of the URL must exist, and the
      comment must be one of its comments. */
  predicate CommentFound(s: Store, postId: Id, commentId: Id) {
    postId in s.posts && commentId in s.comments && s.comments[commentId].post == postId
  }

  /** CommentViewSet.perform_create: the body is validated, then the post of
      the URL is fetched (404), and the comment is saved with the requester
      as author and that post, whatever the body said. */
  function CommentCreate(s: Store, requester: UserId, postId: Id, req: CommentRequest): (r: Result<Saved>)
    requires requester in s.users
    ensures req.text.None? ==> r == Err(ValidationError(Required))
    ensures req.text.Some? && postId !in s.posts ==> r == Err(NotFound)
    ensures r.Ok? <==> req.text.Some? && postId in s.posts
    ensures r.Ok? ==>
      var t, id := r.value.store, r.value.id;
      && s.nextId <= id < t.nextId
      && t == s.(comments := s.comments[id := Comment(requester, postId, req.text.value)], nextId := t.nextId)
  {
    if req.text.None? then Err(ValidationError(Required))
    else if postId !in s.posts then Err(NotFound)
    else SaveComment(s, None, Comment(requester, postId, req.text.value))
  }

  /** CommentViewSet update: lookup (404), validation (400), author check
      (403), then the save with the requester as author and the URL's post. */
  function CommentUpdate(s: Store, requester: UserId, postId: Id, commentId: Id,
                         req: CommentRequest, partial: bool): (r: Result<Saved>)
    requires requester in s.users
    ensures !CommentFound(s, postId, commentId) ==> r == Err(NotFound)
    ensures CommentFound(s, postId, commentId) && !partial && req.text.None? ==>
      r == Err(ValidationError(Required))
    ensures (CommentFound(s, postId, commentId) && (partial || req.text.Some?)
             && s.comments[commentId].author != requester) ==> r == Err(PermissionDenied)
    ensures r.Ok? <==>
      CommentFound(s, postId, commentId) && (partial || req.text.Some?)
      && s.comments[commentId].author == requester
    ensures r.Ok? ==>
      var before := s.comments[commentId];
      && r.value.id == commentId
      && r.value.store == s.(comments := s.comments[commentId := before.(text := req.text.GetOr(before.text))])
  {
    if !CommentFound(s, postId, commentId) then Err(NotFound)
    else if !partial && req.text.None? then Err(ValidationError(Required))
    else if s.comments[commentId].author != requester then Err(PermissionDenied)
    else
      var before := s.comments[commentId];
      SaveComment(s, Some(commentId), Comment(requester, postId, req.text.GetOr(before.text)))
  }

  /** CommentViewSet.perform_destroy: only the author may delete. */
  function CommentDestroy(s: Store, requester: UserId, postId: Id, commentId: Id): (r: Result<Store>)
    ensures !CommentFound(s, postId, commentId) ==> r == Err(NotFound)
    ensures CommentFound(s, postId, commentId) && s.comments[commentId].author != requester ==>
      r == Err(PermissionDenied)
    ensures r.Ok? <==> CommentFound(s, postId, commentId) && s.comments[commentId].author == requester
    ensures r.Ok? ==> r.value == s.(comments := s.comments - {commentId})
  {
    if !CommentFound(s, postId, commentId) then Err(NotFound)
    else if s.comments[commentId].author != requester then Err(PermissionDenied)
    else Ok(DeleteComment(s, commentId))
  }

  // ---------------------------------------------------------------------
  // Journals

  /** JournalViewSet.perform_create: the journal is created with the
      requester as author, whatever the body said. */
  function JournalCreate(s: Store, requester: UserId, req: JournalRequest, now: Time,
                         kdf: Vault.Kdf, salt: Vault.Salt): (r: Result<Created>)
    requires requester in s.users
    ensures r.Ok? <==> ValidateJournal(req, false).Ok?
    ensures r.Err? ==> r == Err(ValidateJournal(req, false).error)
    ensures r.Ok? ==>
      var t, id := r.value.saved.store, r.value.saved.id;
      var data := ValidateJournal(req, false).value;
      && id in t.journals
      && t.journals == s.journals[id := t.journals[id]]
      && s.nextId <= id < t.nextId
      && t.posts == s.posts && SameOutsideJournals(s, t)
      && t.journals[id].author == requester
      && t.journals[id].title == Trim(req.title.value)
      && t.journals[id].description == data.description.GetOr(None)
      && t.journals[id].image == req.image.GetOr(None)
      && t.journals[id].isPrivate == req.isPrivate.GetOr(false)
      && t.journals[id].pubDate == now && t.journals[id].lastModified == now
      // the stored row has no PIN hash, even when a valid pin was sent
      && t.journals[id].pinCode.None?
  {
    match ValidateJournal(req, false)
    case Err(e) => Err(e)
    case Ok(data) => Create(s, data, requester, now, kdf, salt)
  }

  /** JournalViewSet update: lookup (404), validation (400), author check
      (403), then JournalSerializer.update with the requester as author. */
  function JournalUpdate(s: Store, requester: UserId, id: Id, req: JournalRequest, partial: bool,
                         now: Time, kdf: Vault.Kdf, salt: Vault.Salt): (r: Result<Saved>)
    requires requester in s.users
    ensures id !in s.journals ==> r == Err(NotFound)
    ensures id in s.journals && ValidateJournal(req, partial).Err? ==>
      r == Err(ValidateJournal(req, partial).error)
    ensures id in s.journals && ValidateJournal(req, partial).Ok? && s.journals[id].author != requester ==>
      r == Err(PermissionDenied)
    ensures r.Ok? <==>
      id in s.journals && ValidateJournal(req, partial).Ok? && s.journals[id].author == requester
    ensures r.Ok? ==>
      var t, before := r.value.store, s.journals[id];
      var data := ValidateJournal(req, partial).value;
      var private := req.isPrivate.GetOr(before.isPrivate);
      && r.value.id == id && id in t.journals
      && t.journals == s.journals[id := t.journals[id]]
      && t.nextId == s.nextId
      && SameOutsideJournals(s, t)
      && t.journals[id].author == before.author == requester
      && t.journals[id].title == data.title.GetOr(before.title)
      && t.journals[id].description == data.description.GetOr(before.description)
      && t.journals[id].image == req.image.GetOr(before.image)
      && t.journals[id].pubDate == before.pubDate && t.journals[id].lastModified == now
      && t.journals[id].isPrivate == private
      // the hash is of the pin just sent, and only on a private journal
      && (t.journals[id].pinCode.Some? <==> private && Truthy(data.pin))
      && (t.journals[id].pinCode.Some? ==>
            t.journals[id].pinCode == Some(Vault.MakePassword(kdf, salt, data.pin.value)))
      && (before.isPrivate == private ==> t.posts == s.posts)
      && (before.isPrivate != private ==> Cascaded(s.posts, t.posts, id, private))
  {
    if id !in s.journals then Err(NotFound)
    else
      match ValidateJournal(req, partial)
      case Err(e) => Err(e)
      case Ok(data) =>
        if s.journals[id].author != requester then Err(PermissionDenied)
        else Update(s, id, data, requester, now, kdf, salt)
  }

  /** JournalViewSet.perform_destroy: only the author may delete; the
      journal's posts and their comments go with it. */
  function JournalDestroy(s: Store, requester: UserId, id: Id): (r: Result<Store>)
    ensures id !in s.journals ==> r == Err(NotFound)
    ensures id in s.journals && s.journals[id].author != requester ==> r == Err(PermissionDenied)
    ensures r.Ok? <==> id in s.journals && s.journals[id].author == requester
    ensures r.Ok? ==> id !in r.value.journals && r.value == DeleteJournal(s, id)
  {
    if id !in s.journals then Err(NotFound)
    else if s.journals[id].author != requester then Err(PermissionDenied)
    else Ok(DeleteJournal(s, id))
  }

  // ---------------------------------------------------------------------
  // Follows

  /** The edges of `fs` whose follower is `user`, in table order. */
  function Outgoing(fs: seq<Follow>, user: UserId): seq<Follow>
  {
    if fs == [] then []
    else Outgoing(fs[..|fs| - 1], user) + (if fs[|fs| - 1].user == user then [fs[|fs| - 1]] else [])
  }

  lemma {:induction false} OutgoingMembers(fs: seq<Follow>, user: UserId)
    ensures forall f :: f in Outgoing(fs, user) <==> f in fs && f.user == user
  {
    if fs != [] {
      OutgoingMembers(fs[..|fs| - 1], user);
      assert fs == fs[..|fs| - 1] + [fs[|fs| - 1]];
    }
  }

  /** FollowViewSet.get_queryset: user.following.all(). */
  method FollowList(s: Store, requester: UserId) returns (edges: seq<Follow>)
    ensures edges == Outgoing(s.follows, requester)
    ensures forall f :: f in edges <==> f in s.follows && f.user == requester
  {
    edges := [];
    var i := 0;
    while i < |s.follows|
      invariant 0 <= i <= |s.follows|
      invariant edges == Outgoing(s.follows[..i], requester)
    {
      assert s.follows[..i + 1][..i] == s.follows[..i];
      if s.follows[i].user == requester {
        edges := edges + [s.follows[i]];
      }
      i := i + 1;
    }
    assert s.follows[..i] == s.follows;
    OutgoingMembers(s.follows, requester);
  }

  /** FollowViewSet.perform_create: the serializer's checks, then the insert
      with the requester as follower; the unique-pair violation becomes a
      validation error and no edge is added. */
  function FollowCreate(s: Store, requester: UserId, following: UserId): (r: Result<Store>)
    requires requester in s.users
    ensures following !in s.users ==> r == Err(ValidationError(UnknownUser))
    ensures following == requester ==> r == Err(ValidationError(SelfFollow))
    ensures following in s.users && following != requester && Follow(requester, following) in s.follows ==>
      r == Err(ValidationError(AlreadyFollowing))
    ensures r.Ok? <==>
      following in s.users && following != requester && Follow(requester, following) !in s.follows
    ensures r.Ok? ==> r.value == s.(follows := s.follows + [Follow(requester, following)])
  {
    match ValidateFollow(s, requester, following)
    case Err(e) => Err(e)
    case Ok(f) =>
      match InsertFollow(s, f)
      case Err(_) => Err(ValidationError(AlreadyFollowing))
      case Ok(t) => Ok(t)
  }
}
